=== FILE: README.md ===
# CSV loader core, modelled in Dafny

This project models the pure logic inside a small CSV-to-PostgreSQL loader
(`csvloader.py`) and the companion fixer script (`csvfixer.py`):

- the **byte filter** that both files copy a CSV through before it is loaded:
  byte `0xC9` (a mis-encoded accented `e`) becomes ASCII `e`, byte `0x00` is
  dropped, and every other byte is copied. A further branch for chunks
  "greater than `0xFF`" is never reached, and would raise `TypeError` if it
  were;
- the **column-name normalizer** `_simplify_text`: each maximal run of
  characters outside `[0-9a-zA-Z]` becomes one `_`, the result is lower-cased,
  and one leading `_` is removed;
- the **load planning** of `load_data`: normalized headers, the table name
  derived from the file name, the CREATE TABLE and COPY column lists and
  statements, the escape character COPY is given, and the order of the calls
  made on the database connection.

Files and modules:

| file | module | models |
|---|---|---|
| `byte_filter.dfy` | `ByteFilter` | the if/elif chain on each `read(1)` chunk, the whole filter as a function, its diagnostics |
| `csvfixer.dfy` | `CsvFixer` | the fixer script's per-file loop |
| `identifier.dfy` | `Identifier`, `IdentifierExamples` | `_simplify_text` and a word-by-word reference for it |
| `paths.dfy` | `Paths` | `os.path.basename` and the root of `os.path.splitext` for `/`-separated paths |
| `sql.dfy` | `Sql` | column lists, their parsers, the two statements |
| `csvloader.dfy` | `CsvLoader` | `_normalize_headers`, `_generate_table_name`, the escape logic, `load_data`'s plan and connection calls, `_remove_invalid_characters` |
| `wrappers.dfy` | `Wrappers` | `Option` for Python's `None`, `Result` for raised exceptions |

Where the code and the descriptions of it disagree, the model follows the code:

- The docstrings and comments of `_simplify_text` and `load_data` say
  upper-case letters are replaced by `_` plus the lower-case letter
  (`SimpleText` to `_simple_text`). The code only lower-cases:
  `SimpleText` becomes `simpletext` (`IdentifierExamples.SimplifyDoesNotSplitCamelCase`).
- A trailing separator run is kept as `_`: `1st Name!!` becomes `1st_name_`,
  not `1st_name`.
- A header with no letter or digit, such as `###`, becomes the empty string;
  no error is raised, and duplicate column names are not rejected either.
- The table-name prefix is read from `self._table_prefix`, which is never
  set (see Findings). The model takes the prefix as an option whose default
  is `DEFAULT_TABLE_PREFIX`, `csv_`.

The `c > b'\xff'` test is modelled as Python's lexicographic comparison of
`bytes` objects (`ByteFilter.BytesGreater`). It holds exactly for chunks of
two or more bytes that start with `0xFF`. It never holds for the one-byte
chunks `read(1)` returns, and both loops mark that branch with `assert false`,
which the verifier accepts. Its diagnostic is built with `hex(ord(c))`, and
`ord` accepts only a one-byte chunk. So the branch does not drop anything
with a warning, as its message suggests: any chunk that took it would make
the loop raise `TypeError` (`ByteFilter.Handle`).

## Model

| member | source | states |
|---|---|---|
| ByteFilter.Classify | csvloader.py:112-123 | the if/elif chain on a chunk: the empty chunk and only it ends the loop; a one-byte chunk is "corrupt" exactly when it is 0xC9 and "NUL" exactly when it is 0x00, and never takes the `> b'\xff'` branch |
| ByteFilter.Emit | csvloader.py:115-123 | per byte: 0xC9 is written as `e` (0x65), 0x00 writes nothing, any other byte is written unchanged |
| ByteFilter.Sanitize | csvloader.py:106-123 | the filter's output is the input's length minus the number of 0x00 bytes, and contains no 0x00 and no 0xC9 byte |
| ByteFilter.SanitizeKeepsInOrder | csvloader.py:106-123 | the non-NUL input byte at position i is written, repaired, at position i minus the NULs before it: kept bytes keep their relative order and nothing is added |
| ByteFilter.SanitizeAppend | csvloader.py:108-123 | the filter handles one byte at a time with no context: filtering a concatenation is concatenating the filtered parts |
| ByteFilter.SanitizeFixesClean | csvloader.py:115-123 | a stream without 0x00 and 0xC9 bytes is copied unchanged |
| ByteFilter.SanitizeIdempotent | csvloader.py:115-123 | filtering an already filtered stream changes nothing |
| ByteFilter.OneByteNeverAboveMax | csvloader.py:120-121 | a one-byte chunk never compares greater than `b'\xff'`, so the invalid-character branch is dead |
| ByteFilter.TwoBytesAboveMax | csvloader.py:120 | the same comparison does hold for a two-byte chunk starting with 0xFF |
| ByteFilter.AboveMaxIsLong | csvloader.py:120 | only a chunk of at least two bytes starting with 0xFF compares greater than `b'\xff'` |
| ByteFilter.Ord | csvloader.py:121 | Python's `ord` on a `bytes` object succeeds exactly on a one-byte chunk, giving its byte |
| ByteFilter.Handle | csvloader.py:112-123 | every branch but the `> b'\xff'` one completes; that one completes only for a one-byte chunk, because its warning calls `ord`; only the 0xC9 and plain branches write anything |
| ByteFilter.InvalidBranchRaises | csvloader.py:120-121 | any chunk that takes the `> b'\xff'` branch raises `TypeError` instead of being dropped with a warning (csvfixer.py:36-37 does the same) |
| ByteFilter.Report | csvloader.py:115-121 | one diagnostic for a 0xC9 byte, one for a 0x00 byte, none for any other byte |
| ByteFilter.Anomalies | csvloader.py:115-121 | a stream logs exactly as many diagnostics as it has 0xC9 and 0x00 bytes, each a repair or a drop |
| CsvLoader.RemoveInvalidCharacters | csvloader.py:106-123 | the loop writes exactly the filter's output to the work file and logs exactly the stream's diagnostics |
| CsvFixer.FixFile | csvfixer.py:21-40 | the fixer loop writes the same bytes as the loader's filter, logs the same diagnostics followed by one end-of-file line, and calls `read(1)` once per input byte plus once more for the empty read that stops it |
| Identifier.Collapse | csvloader.py:208 | replacing separator runs leaves only ASCII letters, digits and `_`, never two `_` in a row, never longer than the input, and no leading `_` when scanning starts inside a run |
| Identifier.Simplify | csvloader.py:208-213 | a normalized name has only `[0-9a-z_]`, never two consecutive `_`, never a leading `_`, and is no longer than the header |
| Identifier.SimplifyIsCollapseInRun | csvloader.py:208-212 | stripping one leading `_` after collapsing is the same as dropping the whole leading separator run |
| Identifier.SimplifySkipsLeadingSeparators | csvloader.py:208-212 | a header's leading run of non-alphanumerics does not affect its name |
| Identifier.SimplifyWordThenSeparators | csvloader.py:208 | a word followed by a separator run becomes the lower-cased word and one `_`, followed by the name of the rest: with the two lemmas around it this fixes the name of every header |
| Identifier.SimplifyWord | csvloader.py:208 | a header of letters and digits only is just lower-cased; camelCase is not split |
| Identifier.SimplifyKeepsAlnums | csvloader.py:208-213 | the letters and digits of the name are exactly those of the header, in order, lower-cased |
| Identifier.SimplifyEmptyIff | csvloader.py:208-213 | the name is empty exactly when the header has no ASCII letter or digit |
| Identifier.SimplifyFixesCanonical | csvloader.py:208-213 | a string already of the normalized form is its own name |
| Identifier.SimplifyIdempotent | csvloader.py:208-213 | normalizing a normalized name changes nothing |
| IdentifierExamples.SimplifyKeepsTrailingUnderscore | csvloader.py:208-213 | `1st Name!!` becomes `1st_name_` |
| IdentifierExamples.SimplifyAllSeparatorsIsEmpty | csvloader.py:208-213 | `###` becomes the empty string |
| IdentifierExamples.SimplifyDoesNotSplitCamelCase | csvloader.py:208-213 | `SimpleText` becomes `simpletext` |
| Paths.Basename | csvloader.py:144 | the base name is the longest suffix of the path without `/`: it has no `/`, and the character before it is `/` |
| Paths.Stem | csvloader.py:144 | the stem is a prefix of the base name; it is shorter exactly when some character other than `.` precedes a `.`, and then it stops at the last `.`, so a leading-dot name keeps its dot |
| Paths.BasenameOfJoin | csvloader.py:144 | `dir/file` has base name `file` whatever `dir` is |
| Paths.StemWithoutDot | csvloader.py:144 | a name without `.` is its own stem |
| Paths.StemOfExtension | csvloader.py:144 | `base.ext` has stem `base` when `base` is not all dots and `ext` has no `.` |
| Paths.StemOfDotName | csvloader.py:144 | `.csv`, `..csv` and other names whose only dots lead them are their own stems |
| CsvLoader.NormalizeHeaders | csvloader.py:135 | one column per header, same count, and column i is the normalized header i |
| CsvLoader.NormalizedHaveNoComma | csvloader.py:135 | no normalized column contains a comma, so the column lists cannot be misread |
| CsvLoader.GenerateTableName | csvloader.py:144-145 | the table name starts with the prefix and the rest is a normalized name no longer than the path |
| CsvLoader.TableNameIgnoresDirectory | csvloader.py:144-145 | the table name depends on the file name only, not the directory |
| CsvLoader.TableNameOfFile | csvloader.py:144-145 | `dir/base.ext`, for any extension without `.`, gives the prefix followed by the normalized `base` |
| CsvLoader.GenerateTableNameAsWrittenFails | csvloader.py:145 | as written, generating a table name always raises `AttributeError` for `_table_prefix` |
| CsvLoader.LoadDataAsWrittenNeedsTableName | csvloader.py:57-58 | as written, `load_data` fails exactly when no table name is passed, and otherwise does what the corrected loader does |
| CsvLoader.CollapseEscape | csvloader.py:51 | the escape character is dropped (becomes `None`) exactly when it is absent or equal to the quote character; otherwise it is kept |
| CsvLoader.CopyEscape | csvloader.py:178 | `escape or quote`: a non-empty escape character is used as given; `None` and the empty string fall back to the quote character |
| CsvLoader.EffectiveEscape | csvloader.py:178 | with the collapse at line 51, COPY's ESCAPE is the quote character exactly when the escape character is `None`, empty or equal to the quote character, and otherwise is the escape character |
| CsvLoader.TableNameFor | csvloader.py:57-58 | the caller's table name is used when given; otherwise the name is generated and starts with the prefix |
| CsvLoader.DefaultTableName | csvloader.py:18 | with the default options, `dir/base.csv` loads into `csv_` followed by the normalized `base` |
| CsvLoader.PlanLoad | csvloader.py:51-73 | one column per header in order; CREATE TABLE is planned exactly when asked for; the CREATE and COPY column lists both parse back to exactly the normalized columns; COPY gets the delimiter and quote, and as ESCAPE the quote character exactly when no distinct non-empty escape character is given, and that character otherwise; COPY reads the filtered bytes, before text decoding |
| CsvLoader.Session | csvloader.py:63-76 | exactly nine recorded driver calls with CREATE TABLE and five without: connect first and close last; CREATE TABLE, when sent, runs on its own cursor (lines 157-160), is executed as `Sql.Render` fills the template of line 22, committed, and its cursor closed, all before COPY; COPY runs on a second cursor (line 185) that is never closed, carries the statement rendered from the template of line 23 and the filtered bytes (before text decoding), and is committed; there is exactly one COPY |
| CsvLoader.LoadData | csvloader.py:33-76 | `load_data` makes exactly these recorded calls: connect; when `create_table` is set, cursor, execute of CREATE TABLE, commit, cursor close, and otherwise no execute at all; cursor, one COPY, commit; close. CREATE and COPY name the caller's table when one is given, and the normalized columns; COPY uses the delimiter, the quote and the intended escape (`CsvLoader.IntendedEscape`, stated independently of lines 51 and 178) and reads the filtered contents, before text decoding |
| Sql.CopyColumnListRoundTrip | csvloader.py:175-176 | the COPY column list parses back to exactly the columns, in order |
| Sql.CreateColumnListRoundTrip | csvloader.py:154-155 | the CREATE TABLE column list parses back to exactly the columns, in order |
| Sql.ColumnListsAgree | csvloader.py:154-176 | the CREATE TABLE and COPY column lists name the same columns in the same order and count |
| Sql.CopyColumnListTrailingComma | csvloader.py:175-176 | the parser the round trips use is strict: a COPY column list with a stray trailing comma does not parse, so the parse-back clauses pin the text |

## Left out

- Database I/O (`connect`, `cursor`, `cursor.execute`, `cursor.close`, `copy_expert`, `commit`, `close`) is not run; `CsvLoader.Session` records the calls as data, including the COPY cursor that is never closed.
- CsvLoader.Session: assumes every database call succeeds; errors raised by the driver or the server, and the connection left open when they are, are not modelled.
- `_read_headers` relies on Python's `csv` module, which is not part of this model; the parsed header row is an input. That row is read from the original file, not the filtered one. The model covers only loads whose header row was read. `csv.reader` (csvloader.py:91) raises `TypeError` before `connect` when `delimiter` or `quote_char` is not exactly one character, so such options never reach the database; `CsvLoader.PlanLoad` and `CsvLoader.LoadData` accept any string for them.
- Temporary files (`tempfile.mktemp`, opening, reading, writing, and never deleting them) and the `work_file_prefix` argument are file-system plumbing.
- Text decoding of the work file: csvloader.py:186 opens it in text mode with `encoding`, so COPY receives decoded text in which `\r\n` and `\r` become `\n`, and a filtered stream that is not valid in `encoding` raises `UnicodeDecodeError` after CREATE TABLE has been committed. The model hands COPY the filtered bytes as they are and has no decoding error.
- The fixer's loop over several input files, all written to one output name, is file plumbing; one file's pass is modelled.
- The fixer's command-line parsing and all logging and printing texts; diagnostics are kept only as which branch fired.
- `_create_index` is an empty stub.
- Paths.Basename: models `/`-separated paths only; other path conventions are not modelled.
- `delimiter` and `quote_char` are modelled as strings; passing `None` for them is not modelled.
- Sql.Render: fills the templates `CREATE_STMT` and `COPY_STMT` (csvloader.py:22-23) and has no contract of its own; `CsvLoader.Session` and `CsvLoader.LoadData` state which statement each call carries. Nothing is proved about table names, which are inserted without quoting.

## Findings

| source | as written | input that shows it | evidently intended | confidence | as-written member | corrected member |
|---|---|---|---|---|---|---|
| csvloader.py:145 | the prefix is read from `self._table_prefix`, which neither `__init__` nor the class defines | `load_data("data/sales.csv")` with no `table_name` raises `AttributeError` before connecting | the prefix is `DEFAULT_TABLE_PREFIX`, `csv_`, giving `csv_sales` | high; not executed | CsvLoader.GenerateTableNameAsWritten (shown by CsvLoader.GenerateTableNameAsWrittenFails) | CsvLoader.GenerateTableName (with CsvLoader.DefaultTableName) |

=== FILE: byte_filter.dfy ===
/**
 The single-pass byte filter shared by the loader's work-file step and the
 standalone fixer script. Both read the input one byte at a time with
 `read(1)` and run the same if/elif chain on the chunk that was read:

   - an empty chunk ends the loop;
   - the chunk `0xC9` (a mis-encoded accented `e`) is written as ASCII `e`;
   - the chunk `0x00` is dropped;
   - a chunk comparing greater than `0xFF` would have its warning built with
     `hex(ord(c))`, which raises `TypeError`, since only a chunk of two or
     more bytes compares greater; `read(1)` never returns such a chunk;
   - any other chunk is written unchanged.

 `Classify` is that chain, `Handle` what each branch does, and `Sanitize`
 the whole filter as a pure function on byte sequences.
 */
module ByteFilter {
  import opened Wrappers

  const CorruptByte: bv8 := 0xC9
  /** ASCII `e`, written in place of `CorruptByte`. */
  const RepairedByte: bv8 := 0x65
  const NulByte: bv8 := 0x00
  const MaxByte: bv8 := 0xFF

  /** Number of occurrences of `b` in `s`. */
  function Count(s: seq<bv8>, b: bv8): (n: nat)
    ensures n <= |s|
  {
    if |s| == 0 then 0 else (if s[0] == b then 1 else 0) + Count(s[1..], b)
  }

  /** Python's `>` on two `bytes` objects: lexicographic by unsigned byte
      value, a proper prefix comparing smaller. */
  predicate BytesGreater(a: seq<bv8>, b: seq<bv8>)
    decreases |a|
  {
    if |a| == 0 then false
    else if |b| == 0 then true
    else if a[0] != b[0] then a[0] > b[0]
    else BytesGreater(a[1..], b[1..])
  }

  /** The `c > b'\xff'` test never holds of a one-byte chunk. */
  lemma OneByteNeverAboveMax(chunk: seq<bv8>)
    ensures |chunk| == 1 ==> !BytesGreater(chunk, [MaxByte])
  {
    if |chunk| == 1 {
      assert chunk[1..] == [];
    }
  }

  /** ... but it does hold of a longer chunk starting with 0xFF ... */
  lemma TwoBytesAboveMax(c: bv8)
    ensures BytesGreater([MaxByte, c], [MaxByte])
  {
    assert [MaxByte, c][1..] == [c];
    assert [MaxByte][1..] == [];
  }

  /** ... and of no other chunk. */
  lemma AboveMaxIsLong(chunk: seq<bv8>)
    ensures BytesGreater(chunk, [MaxByte]) ==> |chunk| >= 2 && chunk[0] == MaxByte
  {
    if BytesGreater(chunk, [MaxByte]) {
      assert chunk[0] == MaxByte;
      assert [MaxByte][1..] == [];
      assert BytesGreater(chunk[1..], []);
    }
  }

  /** The branch of the if/elif chain a chunk read by `read(1)` takes. */
  datatype Branch = EndOfInput | Corrupt | Nul | Invalid | Plain

  function Classify(chunk: seq<bv8>): (k: Branch)
    ensures k == EndOfInput <==> |chunk| == 0
    ensures |chunk| == 1 ==> k != Invalid
    ensures |chunk| == 1 ==> (k == Corrupt <==> chunk[0] == CorruptByte)
    ensures |chunk| == 1 ==> (k == Nul <==> chunk[0] == NulByte)
  {
    OneByteNeverAboveMax(chunk);
    if |chunk| == 0 then EndOfInput
    else if chunk == [CorruptByte] then Corrupt
    else if chunk == [NulByte] then Nul
    else if BytesGreater(chunk, [MaxByte]) then Invalid
    else Plain
  }

  /** Python's `ord` on a `bytes` object: its byte when it has exactly one,
      `TypeError` otherwise. */
  function Ord(chunk: seq<bv8>): (r: Result<bv8, string>)
    ensures r.Success? <==> |chunk| == 1
    ensures r.Success? ==> r.value == chunk[0]
  {
    if |chunk| == 1 then Success(chunk[0]) else Failure("TypeError")
  }

  /** What a branch writes and which diagnostic it logs. */
  datatype Outcome = Outcome(written: seq<bv8>, report: seq<Branch>)

  /** What the branch taken for `chunk` does. The `> b'\xff'` branch first
      evaluates `ord(chunk)` for its warning, and so fails on every chunk that
      can take it. */
  function Handle(k: Branch, chunk: seq<bv8>): (r: Result<Outcome, string>)
    ensures k != Invalid ==> r.Success?
    ensures k == Invalid ==> (r.Success? <==> |chunk| == 1)
    ensures r.Success? && r.value.written != [] ==> k == Corrupt || k == Plain
  {
    match k
    case EndOfInput => Success(Outcome([], []))
    case Corrupt => Success(Outcome([RepairedByte], [Corrupt]))
    case Nul => Success(Outcome([], [Nul]))
    case Invalid =>
      var _ :- Ord(chunk);
      Success(Outcome([], [Invalid]))
    case Plain => Success(Outcome(chunk, []))
  }

  /** The `> b'\xff'` branch never drops a chunk quietly: whatever chunk
      takes it makes the loop raise `TypeError`. */
  lemma InvalidBranchRaises(chunk: seq<bv8>)
    ensures Classify(chunk) == Invalid ==> Handle(Invalid, chunk).Failure?
  {
    AboveMaxIsLong(chunk);
  }

  /** The output for one input byte: the per-byte policy. */
  function Emit(b: bv8): (w: seq<bv8>)
    ensures b == CorruptByte ==> w == [RepairedByte]
    ensures b == NulByte ==> w == []
    ensures b != CorruptByte && b != NulByte ==> w == [b]
  {
    Handle(Classify([b]), [b]).value.written
  }

  /** The whole filter. */
  function Sanitize(s: seq<bv8>): (r: seq<bv8>)
    ensures |r| == |s| - Count(s, NulByte)
    ensures forall i :: 0 <= i < |r| ==> r[i] != NulByte && r[i] != CorruptByte
  {
    if |s| == 0 then [] else Emit(s[0]) + Sanitize(s[1..])
  }

  /** The byte a kept input byte turns into. */
  function Repair(b: bv8): bv8 {
    if b == CorruptByte then RepairedByte else b
  }

  /** The filter looks at one byte at a time: it distributes over
      concatenation, so it can run on any split of its input. */
  lemma {:induction false} SanitizeAppend(s: seq<bv8>, t: seq<bv8>)
    ensures Sanitize(s + t) == Sanitize(s) + Sanitize(t)
  {
    if |s| == 0 {
      assert s + t == t;
    } else {
      assert (s + t)[1..] == s[1..] + t;
      SanitizeAppend(s[1..], t);
    }
  }

  /** Processing one more byte appends exactly that byte's output. */
  lemma SanitizeSnoc(s: seq<bv8>, b: bv8)
    ensures Sanitize(s + [b]) == Sanitize(s) + Emit(b)
  {
    SanitizeAppend(s, [b]);
    assert [b][1..] == [];
  }

  /** Order and content: the non-NUL input byte at position `i` lands at
      position `i` minus the number of NULs before it, repaired. With the
      length in `Sanitize`'s contract this fixes the output completely. */
  lemma SanitizeKeepsInOrder(s: seq<bv8>, i: nat)
    requires i < |s| && s[i] != NulByte
    ensures i - Count(s[..i], NulByte) < |Sanitize(s)|
    ensures Sanitize(s)[i - Count(s[..i], NulByte)] == Repair(s[i])
  {
    assert s == s[..i] + ([s[i]] + s[i + 1..]);
    SanitizeAppend(s[..i], [s[i]] + s[i + 1..]);
    SanitizeAppend([s[i]], s[i + 1..]);
    assert Sanitize([s[i]]) == Emit(s[i]) by {
      assert [s[i]][1..] == [];
    }
  }

  predicate Clean(s: seq<bv8>) {
    forall i :: 0 <= i < |s| ==> s[i] != NulByte && s[i] != CorruptByte
  }

  /** A stream with nothing to repair or drop passes through unchanged. */
  lemma {:induction false} SanitizeFixesClean(s: seq<bv8>)
    requires Clean(s)
    ensures Sanitize(s) == s
  {
    if |s| > 0 {
      assert Clean(s[1..]) by {
        forall i | 0 <= i < |s[1..]|
          ensures s[1..][i] != NulByte && s[1..][i] != CorruptByte
        {
          assert s[1..][i] == s[i + 1];
        }
      }
      SanitizeFixesClean(s[1..]);
    }
  }

  lemma SanitizeIdempotent(s: seq<bv8>)
    ensures Sanitize(Sanitize(s)) == Sanitize(s)
  {
    SanitizeFixesClean(Sanitize(s));
  }

  /** The diagnostic each byte produces (none for a plain byte). */
  function Report(b: bv8): (d: seq<Branch>)
    ensures b == CorruptByte ==> d == [Corrupt]
    ensures b == NulByte ==> d == [Nul]
    ensures b != CorruptByte && b != NulByte ==> d == []
  {
    Handle(Classify([b]), [b]).value.report
  }

  /** The diagnostics of a whole stream: one per repaired or dropped byte. */
  function Anomalies(s: seq<bv8>): (d: seq<Branch>)
    ensures |d| == Count(s, CorruptByte) + Count(s, NulByte)
    ensures forall i :: 0 <= i < |d| ==> d[i] == Corrupt || d[i] == Nul
  {
    if |s| == 0 then [] else Report(s[0]) + Anomalies(s[1..])
  }

  lemma {:induction false} AnomaliesAppend(s: seq<bv8>, t: seq<bv8>)
    ensures Anomalies(s + t) == Anomalies(s) + Anomalies(t)
  {
    if |s| == 0 {
      assert s + t == t;
    } else {
      assert (s + t)[1..] == s[1..] + t;
      AnomaliesAppend(s[1..], t);
    }
  }

  lemma AnomaliesSnoc(s: seq<bv8>, b: bv8)
    ensures Anomalies(s + [b]) == Anomalies(s) + Report(b)
  {
    AnomaliesAppend(s, [b]);
    assert [b][1..] == [];
  }

  /** One `read(1)` at offset `pos`: one byte, or empty at end of input. */
  function ReadOne(input: seq<bv8>, pos: nat): (c: seq<bv8>)
    requires pos <= |input|
    ensures pos < |input| ==> c == [input[pos]]
    ensures pos == |input| ==> c == []
  {
    if pos < |input| then input[pos..pos + 1] else []
  }
}

=== FILE: csvfixer.dfy ===
/**
 The standalone fixer script: for each input file it copies the bytes to an
 output file through the shared byte filter, printing a line for every
 repaired or dropped byte and a final "End of File" line.
 */
module CsvFixer {
  import opened ByteFilter

  /** The per-file loop. `output` is what is written to the output file and
      `log` the diagnostics printed, in order; `readCalls` counts the `read(1)`
      calls, the last of which returns the empty chunk that stops the loop. */
  method FixFile(input: seq<bv8>) returns (output: seq<bv8>, log: seq<Branch>, readCalls: int)
    ensures output == Sanitize(input)
    ensures log == Anomalies(input) + [EndOfInput]
    ensures readCalls == |input| + 1
  {
    var pos := 0;
    output, log, readCalls := [], [], 0;
    while true
      invariant 0 <= pos <= |input|
      invariant readCalls == pos
      invariant output == Sanitize(input[..pos])
      invariant log == Anomalies(input[..pos])
      decreases |input| - pos
    {
      var c := ReadOne(input, pos);
      readCalls := readCalls + 1;
      var k := Classify(c);
      if k == EndOfInput {
        log := log + [EndOfInput];
        break;
      }
      assert input[..pos + 1] == input[..pos] + [input[pos]];
      SanitizeSnoc(input[..pos], input[pos]);
      AnomaliesSnoc(input[..pos], input[pos]);
      match k {
        case Corrupt =>
          log := log + [Corrupt];
          output := output + [RepairedByte];
        case Nul =>
          log := log + [Nul];
        case Invalid =>
          // the `c > b'\xff'` branch, whose `ord(c)` would raise: a one-byte chunk never gets here
          assert false;
        case Plain =>
          output := output + c;
      }
      pos := pos + 1;
    }
    assert input[..pos] == input;
  }
}

=== FILE: csvloader.dfy ===
/**
 The loader class: it reads a CSV header, normalizes it into column names,
 derives a table name from the file name, creates the table, copies the file
 through the byte filter into a work file, and bulk-loads the work file with
 PostgreSQL's COPY. The database and the file system are outside this model;
 what is modelled is every value the loader computes and the order of the
 calls it makes on the connection and its cursors.
 */
module CsvLoader {
  import opened Wrappers
  import opened ByteFilter
  import Identifier
  import Paths
  import Sql

  const DefaultDelimiter := ","
  const DefaultQuoteChar := "\""
  const DefaultTablePrefix := "csv_"

  // ---------------------------------------------------------------------
  // Column names.

  /** `_normalize_headers`: one simplified name per header, in order. */
  function NormalizeHeaders(headers: seq<string>): (columns: seq<string>)
    ensures |columns| == |headers|
    ensures forall i :: 0 <= i < |headers| ==> columns[i] == Identifier.Simplify(headers[i])
  {
    if |headers| == 0 then []
    else [Identifier.Simplify(headers[0])] + NormalizeHeaders(headers[1..])
  }

  lemma CanonicalHasNoComma(s: string)
    requires Identifier.IsCanonical(s)
    ensures Sql.Comma !in s
  {
    assert forall k :: 0 <= k < |s| ==> Identifier.IsIdentChar(s[k]);
  }

  /** Normalized names can be listed in the SQL column lists unambiguously. */
  lemma NormalizedHaveNoComma(headers: seq<string>)
    ensures Sql.NoComma(NormalizeHeaders(headers))
  {
    var columns := NormalizeHeaders(headers);
    forall i | 0 <= i < |columns|
      ensures Sql.Comma !in columns[i]
    {
      CanonicalHasNoComma(columns[i]);
    }
  }

  // ---------------------------------------------------------------------
  // Table name.

  /** `_generate_table_name`, with the prefix passed in: the prefix, then the
      normalized stem of the file name. */
  function GenerateTableName(prefix: string, path: string): (name: string)
    ensures |prefix| <= |name| && name[..|prefix|] == prefix
    ensures Identifier.IsCanonical(name[|prefix|..])
    ensures |name| <= |prefix| + |path|
  {
    var base := Paths.Stem(Paths.Basename(path));
    var name := prefix + Identifier.Simplify(base);
    assert name[|prefix|..] == Identifier.Simplify(base);
    name
  }

  /** The directory part of the path plays no role. */
  lemma TableNameIgnoresDirectory(prefix: string, dir: string, file: string)
    requires '/' !in file
    ensures GenerateTableName(prefix, dir + "/" + file) == GenerateTableName(prefix, file)
  {
    Paths.BasenameOfJoin(dir, file);
    assert Paths.Basename(file) == file;
  }

  /** `data/Sales Report.csv` gives the prefix followed by `sales_report`:
      the table is named after the file name without its extension. */
  lemma TableNameOfFile(prefix: string, dir: string, base: string, ext: string)
    requires '/' !in base && !Paths.AllDots(base)
    requires '/' !in ext && '.' !in ext
    ensures GenerateTableName(prefix, dir + "/" + base + "." + ext) == prefix + Identifier.Simplify(base)
  {
    var file := base + "." + ext;
    assert dir + "/" + base + "." + ext == dir + "/" + file;
    assert '/' !in file by {
      assert forall k :: |base| < k < |file| ==> file[k] == ext[k - |base| - 1];
    }
    Paths.BasenameOfJoin(dir, file);
    Paths.StemOfExtension(base, ext);
  }

  // ---------------------------------------------------------------------
  // The table name as the source computes it.

  /** Exceptions the modelled code can raise. */
  datatype PyError = AttributeError(attribute: string)

  /** A loader instance: `__init__` stores only the connection string. */
  datatype Loader = Loader(connectionString: string)

  /** The string attributes the class declares, apart from the two statement
      templates, which `Sql.Render` fills in. */
  const ClassAttributes: map<string, string> := map[
    "DEFAULT_DELIMITER" := DefaultDelimiter,
    "DEFAULT_QUOTE_CHAR" := DefaultQuoteChar,
    "DEFAULT_TABLE_PREFIX" := DefaultTablePrefix,
    "DEFAULT_DATA_TYPE" := Sql.DataType
  ]

  /** `self.<attribute>`: instance attributes first, then class attributes. */
  function GetAttr(self: Loader, attribute: string): Result<string, PyError> {
    if attribute == "_connection_string" then Success(self.connectionString)
    else if attribute in ClassAttributes then Success(ClassAttributes[attribute])
    else Failure(AttributeError(attribute))
  }

  /** `_generate_table_name` as written: it reads `self._table_prefix`,
      which nothing ever sets. */
  function GenerateTableNameAsWritten(self: Loader, path: string): Result<string, PyError> {
    var base := Paths.Stem(Paths.Basename(path));
    var prefix :- GetAttr(self, "_table_prefix");
    Success(prefix + Identifier.Simplify(base))
  }

  /** Whatever the loader and path, the generated name is never produced. */
  lemma GenerateTableNameAsWrittenFails(self: Loader, path: string)
    ensures GenerateTableNameAsWritten(self, path) == Failure(AttributeError("_table_prefix"))
  {
    assert "_table_prefix" !in ClassAttributes;
  }

  // ---------------------------------------------------------------------
  // The escape character.

  /** `escape_char = None if (escape_char == quote_char) else escape_char`. */
  function CollapseEscape(quoteChar: string, escapeChar: Option<string>): (e: Option<string>)
    ensures e.None? <==> escapeChar.None? || escapeChar == Some(quoteChar)
    ensures e.Some? ==> e == escapeChar && e.value != quoteChar
  {
    if escapeChar == Some(quoteChar) then None else escapeChar
  }

  /** `escape_char or quote_char`: `None` and the empty string are falsy. */
  function CopyEscape(quoteChar: string, escapeChar: Option<string>): (e: string)
    ensures escapeChar.Some? && escapeChar.value != "" ==> e == escapeChar.value
    ensures escapeChar.None? || escapeChar == Some("") ==> e == quoteChar
  {
    match escapeChar
    case None => quoteChar
    case Some(e) => if e == "" then quoteChar else e
  }

  /** The ESCAPE the COPY statement names is the quote character exactly
      when no distinct escape character was given; otherwise it is the one
      given. */
  lemma EffectiveEscape(quoteChar: string, escapeChar: Option<string>)
    ensures CopyEscape(quoteChar, CollapseEscape(quoteChar, escapeChar)) == quoteChar
        <==> escapeChar == None || escapeChar == Some("") || escapeChar == Some(quoteChar)
    ensures escapeChar.Some? && escapeChar.value != "" && escapeChar.value != quoteChar
        ==> CopyEscape(quoteChar, CollapseEscape(quoteChar, escapeChar)) == escapeChar.value
  {
  }

  /** The ESCAPE the loader means COPY to use: the escape character when a
      non-empty one distinct from the quote character is given, otherwise
      the quote character (PostgreSQL's own default for CSV). */
  function IntendedEscape(quoteChar: string, escapeChar: Option<string>): string {
    if escapeChar.Some? && escapeChar.value != "" && escapeChar.value != quoteChar
    then escapeChar.value
    else quoteChar
  }

  // ---------------------------------------------------------------------
  // Planning one load.

  /** The arguments of `load_data` that affect what is sent to the database,
      plus the table-name prefix. */
  datatype Options = Options(
    tableName: Option<string>,
    delimiter: string,
    quoteChar: string,
    escapeChar: Option<string>,
    createTable: bool,
    tablePrefix: string)

  function DefaultOptions(): Options {
    Options(None, DefaultDelimiter, DefaultQuoteChar, None, true, DefaultTablePrefix)
  }

  /** Everything one load sends: the table, its columns, the optional
      CREATE TABLE, the COPY, and the bytes COPY reads. */
  datatype LoadPlan = LoadPlan(
    table: string,
    columns: seq<string>,
    create: Option<Sql.Statement>,
    copy: Sql.Statement,
    data: seq<bv8>)

  /** The table name `load_data` uses: the caller's, or a generated one. */
  function TableNameFor(path: string, opts: Options): (name: string)
    ensures opts.tableName.Some? ==> name == opts.tableName.value
    ensures opts.tableName.None? ==> |opts.tablePrefix| <= |name| && name[..|opts.tablePrefix|] == opts.tablePrefix
  {
    match opts.tableName
    case Some(t) => t
    case None => GenerateTableName(opts.tablePrefix, path)
  }

  /** With the default options a file `dir/base.csv` loads into `csv_` followed
      by the normalized `base`. */
  lemma DefaultTableName(dir: string, base: string)
    requires '/' !in base && !Paths.AllDots(base)
    ensures TableNameFor(dir + "/" + base + ".csv", DefaultOptions()) == "csv_" + Identifier.Simplify(base)
  {
    CsvIsAnExtension(dir + "/" + base);
    TableNameOfFile(DefaultTablePrefix, dir, base, "csv");
  }

  lemma CsvIsAnExtension(p: string)
    ensures p + ".csv" == p + "." + "csv"
    ensures '/' !in "csv" && '.' !in "csv"
  {
    assert "." + "csv" == ".csv";
  }

  /** The values `load_data`, `_create_table` and `_copy_from_csv` compute
      for a file with the given header row and contents. */
  function PlanLoad(table: string, headers: seq<string>, contents: seq<bv8>, opts: Options): (p: LoadPlan)
    ensures p.table == table
    ensures |p.columns| == |headers|
    ensures forall i :: 0 <= i < |headers| ==> p.columns[i] == Identifier.Simplify(headers[i])
    ensures p.create.Some? <==> opts.createTable
    ensures p.create.Some? ==> p.create.value.CreateTable? && p.create.value.table == table
    ensures p.create.Some? ==> Sql.ParseCreateColumnList(p.create.value.columnList) == Some(p.columns)
    ensures p.copy.CopyFrom? && p.copy.table == table
    ensures Sql.ParseCopyColumnList(p.copy.columnList) == Some(p.columns)
    ensures p.copy.delimiter == opts.delimiter && p.copy.quote == opts.quoteChar
    ensures p.copy.escape == opts.quoteChar
        <==> opts.escapeChar == None || opts.escapeChar == Some("") || opts.escapeChar == Some(opts.quoteChar)
    ensures opts.escapeChar.Some? && opts.escapeChar.value != "" && opts.escapeChar.value != opts.quoteChar
        ==> p.copy.escape == opts.escapeChar.value
    ensures p.data == Sanitize(contents)
  {
    var escape := CollapseEscape(opts.quoteChar, opts.escapeChar);
    var columns := NormalizeHeaders(headers);
    NormalizedHaveNoComma(headers);
    Sql.ColumnListsAgree(columns);
    EffectiveEscape(opts.quoteChar, opts.escapeChar);
    var create :=
      if opts.createTable then Some(Sql.CreateTable(table, Sql.CreateColumnList(columns))) else None;
    var copy := Sql.CopyFrom(table, Sql.CopyColumnList(columns), opts.delimiter, opts.quoteChar,
                             CopyEscape(opts.quoteChar, escape));
    LoadPlan(table, columns, create, copy, Sanitize(contents))
  }

  // ---------------------------------------------------------------------
  // The calls made on the connection.

  /** The calls made on the driver: on the connection, and on the cursors
      it hands out. */
  datatype Effect =
    | Connect(dsn: string)
    | Cursor
    | Execute(sql: string)
    | Commit
    | CloseCursor
    | CopyExpert(sql: string, data: seq<bv8>)
    | Close

  /** The driver calls of one load, in order: `_create_table` opens a cursor,
      executes, commits and closes the cursor; `_copy_from_csv` opens a
      second cursor, copies and commits, and leaves that cursor open. */
  function Session(dsn: string, p: LoadPlan): (t: seq<Effect>)
    ensures |t| == if p.create.Some? then 9 else 5
    ensures t[0] == Connect(dsn) && t[|t| - 1] == Close
    ensures p.create.Some? ==>
      t[1] == Cursor && t[2] == Execute(Sql.Render(p.create.value)) && t[3] == Commit && t[4] == CloseCursor
    ensures p.create.None? ==> forall i :: 0 <= i < |t| ==> !t[i].Execute?
    ensures t[|t| - 4] == Cursor && t[|t| - 3] == CopyExpert(Sql.Render(p.copy), p.data) && t[|t| - 2] == Commit
    ensures forall i :: 0 <= i < |t| && t[i].CopyExpert? ==> i == |t| - 3
    ensures forall i, j :: 0 <= i < j < |t| && t[i].CopyExpert? ==> !t[j].CloseCursor?
  {
    var create := match p.create
      case Some(s) => [Cursor, Execute(Sql.Render(s)), Commit, CloseCursor]
      case None => [];
    [Connect(dsn)] + create + [Cursor, CopyExpert(Sql.Render(p.copy), p.data), Commit, Close]
  }

  /** `load_data` with the table prefix passed in: connect, create the table
      when asked to, COPY the filtered file into it with the normalized
      columns and the intended escape, commit, close. */
  function LoadData(dsn: string, path: string, headers: seq<string>, contents: seq<bv8>, opts: Options): (t: seq<Effect>)
    ensures |t| == if opts.createTable then 9 else 5
    ensures t[0] == Connect(dsn) && t[|t| - 2] == Commit && t[|t| - 1] == Close
    ensures opts.createTable ==>
      t[1] == Cursor
      && t[2] == Execute(Sql.Render(Sql.CreateTable(TableNameFor(path, opts),
                                                    Sql.CreateColumnList(NormalizeHeaders(headers)))))
      && t[3] == Commit && t[4] == CloseCursor
    ensures !opts.createTable ==> forall i :: 0 <= i < |t| ==> !t[i].Execute?
    ensures t[|t| - 4] == Cursor
    ensures t[|t| - 3] == CopyExpert(
      Sql.Render(Sql.CopyFrom(TableNameFor(path, opts), Sql.CopyColumnList(NormalizeHeaders(headers)),
                              opts.delimiter, opts.quoteChar, IntendedEscape(opts.quoteChar, opts.escapeChar))),
      Sanitize(contents))
    ensures opts.tableName.Some? ==> TableNameFor(path, opts) == opts.tableName.value
  {
    EffectiveEscape(opts.quoteChar, opts.escapeChar);
    Session(dsn, PlanLoad(TableNameFor(path, opts), headers, contents, opts))
  }

  /** `load_data` as written: without a table name it stops with the
      `AttributeError` before connecting. */
  function LoadDataAsWritten(self: Loader, path: string, headers: seq<string>, contents: seq<bv8>,
                             opts: Options): Result<seq<Effect>, PyError>
  {
    var table :- match opts.tableName
      case Some(t) => Success(t)
      case None => GenerateTableNameAsWritten(self, path);
    Success(Session(self.connectionString, PlanLoad(table, headers, contents, opts)))
  }

  /** As written, every load that asks for a generated name fails; every
      other load does what the corrected `LoadData` does. */
  lemma LoadDataAsWrittenNeedsTableName(self: Loader, path: string, headers: seq<string>,
                                        contents: seq<bv8>, opts: Options)
    ensures LoadDataAsWritten(self, path, headers, contents, opts).Failure? <==> opts.tableName.None?
    ensures opts.tableName.Some? ==>
      LoadDataAsWritten(self, path, headers, contents, opts)
        == Success(LoadData(self.connectionString, path, headers, contents, opts))
  {
    GenerateTableNameAsWrittenFails(self, path);
  }

  // ---------------------------------------------------------------------
  // The work file.

  /** `_remove_invalid_characters`: the bytes written to the work file and
      the diagnostics logged, one per repaired or dropped byte. */
  method RemoveInvalidCharacters(input: seq<bv8>) returns (work: seq<bv8>, log: seq<Branch>)
    ensures work == Sanitize(input)
    ensures log == Anomalies(input)
  {
    var pos := 0;
    work, log := [], [];
    while true
      invariant 0 <= pos <= |input|
      invariant work == Sanitize(input[..pos])
      invariant log == Anomalies(input[..pos])
      decreases |input| - pos
    {
      var c := ReadOne(input, pos);
      var k := Classify(c);
      if k == EndOfInput {
        break;
      }
      assert input[..pos + 1] == input[..pos] + [input[pos]];
      SanitizeSnoc(input[..pos], input[pos]);
      AnomaliesSnoc(input[..pos], input[pos]);
      match k {
        case Corrupt =>
          log := log + [Corrupt];
          work := work + [RepairedByte];
        case Nul =>
          log := log + [Nul];
        case Invalid =>
          // the `c > b'\xff'` branch, whose `ord(c)` would raise: a one-byte chunk never gets here
          assert false;
        case Plain =>
          work := work + c;
      }
      pos := pos + 1;
    }
    assert input[..pos] == input;
  }
}

=== FILE: identifier.dfy ===
/**
 The column-name normalizer `_simplify_text`: every maximal run of characters
 outside `[0-9a-zA-Z]` becomes one `_`, the result is lower-cased, and one
 leading `_` is removed. Upper-case letters are only lower-cased; camelCase is
 not split into words, whatever the surrounding comments say.
 */
module Identifier {

  predicate IsAlnum(c: char) {
    '0' <= c <= '9' || 'a' <= c <= 'z' || 'A' <= c <= 'Z'
  }

  /** The characters a normalized identifier is made of. */
  predicate IsIdentChar(c: char) {
    '0' <= c <= '9' || 'a' <= c <= 'z' || c == '_'
  }

  /** ASCII lower-casing. Only ASCII letters, digits and `_` reach `lower()`
      in the normalizer, and for those it is exactly this. */
  function ToLower(c: char): char {
    if 'A' <= c <= 'Z' then (c as int + 32) as char else c
  }

  function Lower(s: string): (r: string)
    ensures |r| == |s|
    ensures forall i :: 0 <= i < |s| ==> r[i] == ToLower(s[i])
  {
    if |s| == 0 then [] else [ToLower(s[0])] + Lower(s[1..])
  }

  predicate AllAlnum(s: string) {
    forall i :: 0 <= i < |s| ==> IsAlnum(s[i])
  }

  predicate NoAlnum(s: string) {
    forall i :: 0 <= i < |s| ==> !IsAlnum(s[i])
  }

  predicate NoDoubleUnderscore(s: string) {
    forall i :: 0 <= i < |s| - 1 ==> !(s[i] == '_' && s[i + 1] == '_')
  }

  /** What a normalized identifier looks like: only `[0-9a-z_]`, never two
      `_` in a row, never a leading `_`. */
  predicate IsCanonical(s: string) {
    && (forall i :: 0 <= i < |s| ==> IsIdentChar(s[i]))
    && NoDoubleUnderscore(s)
    && (|s| > 0 ==> s[0] != '_')
  }

  /** `re.sub('[^0-9a-zA-Z]+', '_', s)`, scanned left to right; `inRun` holds
      when the character just before `s` was part of a run already replaced. */
  function Collapse(s: string, inRun: bool): (r: string)
    ensures |r| <= |s|
    ensures forall i :: 0 <= i < |r| ==> IsAlnum(r[i]) || r[i] == '_'
    ensures NoDoubleUnderscore(r)
    ensures inRun && |r| > 0 ==> r[0] != '_'
  {
    if |s| == 0 then []
    else if IsAlnum(s[0]) then [s[0]] + Collapse(s[1..], false)
    else if inRun then Collapse(s[1..], true)
    else ['_'] + Collapse(s[1..], true)
  }

  /** `_simplify_text`. */
  function Simplify(text: string): (r: string)
    ensures IsCanonical(r)
    ensures |r| <= |text|
  {
    var unified := Lower(Collapse(text, false));
    if |unified| > 0 && unified[0] == '_' then unified[1..] else unified
  }

  // ---------------------------------------------------------------------
  // How `Collapse` treats words and separator runs.

  /** An alphanumeric word is copied and ends any separator run. */
  lemma {:induction false} CollapseWord(w: string, t: string, inRun: bool)
    requires |w| > 0 && AllAlnum(w)
    ensures Collapse(w + t, inRun) == w + Collapse(t, false)
  {
    assert (w + t)[0] == w[0];
    assert (w + t)[1..] == w[1..] + t;
    if |w| > 1 {
      CollapseWord(w[1..], t, false);
      assert [w[0]] + w[1..] == w;
    } else {
      assert w[1..] + t == t;
    }
  }

  /** Inside a run, further separators add nothing. */
  lemma {:induction false} CollapseSeparators(s: string, t: string)
    requires NoAlnum(s)
    ensures Collapse(s + t, true) == Collapse(t, true)
  {
    if |s| > 0 {
      assert (s + t)[0] == s[0];
      assert (s + t)[1..] == s[1..] + t;
      CollapseSeparators(s[1..], t);
    } else {
      assert s + t == t;
    }
  }

  lemma LowerAppend(a: string, b: string)
    ensures Lower(a + b) == Lower(a) + Lower(b)
  {
  }

  /** Stripping one leading `_` is the same as starting the scan inside a
      separator run: the whole leading run disappears. */
  lemma SimplifyIsCollapseInRun(text: string)
    ensures Simplify(text) == Lower(Collapse(text, true))
  {
    if |text| > 0 && !IsAlnum(text[0]) {
      assert Collapse(text, false) == ['_'] + Collapse(text[1..], true);
      assert Collapse(text, true) == Collapse(text[1..], true);
      LowerAppend(['_'], Collapse(text[1..], true));
      assert (['_'] + Lower(Collapse(text[1..], true)))[1..] == Lower(Collapse(text[1..], true));
    }
  }

  // ---------------------------------------------------------------------
  // A word-by-word reference for `Simplify`. Every string is a (possibly
  // empty) separator run followed by alternating words and runs, so the
  // three lemmas below determine `Simplify` on every input.

  /** A leading run of separators is ignored. */
  lemma SimplifySkipsLeadingSeparators(s: string, t: string)
    requires NoAlnum(s)
    ensures Simplify(s + t) == Simplify(t)
  {
    SimplifyIsCollapseInRun(s + t);
    SimplifyIsCollapseInRun(t);
    CollapseSeparators(s, t);
  }

  /** A separator run outside a run becomes a single `_`. */
  lemma CollapseSeparatorRun(s: string, t: string)
    requires |s| > 0 && NoAlnum(s)
    ensures Collapse(s + t, false) == ['_'] + Collapse(t, true)
  {
    assert (s + t)[0] == s[0];
    assert (s + t)[1..] == s[1..] + t;
    CollapseSeparators(s[1..], t);
  }

  lemma {:induction false} CollapseWordThenSeparators(w: string, s: string, t: string)
    requires |w| > 0 && AllAlnum(w)
    requires |s| > 0 && NoAlnum(s)
    ensures Collapse(w + s + t, true) == w + (['_'] + Collapse(t, true))
  {
    assert w + s + t == w + (s + t);
    CollapseWord(w, s + t, true);
    CollapseSeparatorRun(s, t);
  }

  lemma LowerAroundUnderscore(w: string, r: string)
    ensures Lower(w + (['_'] + r)) == Lower(w) + "_" + Lower(r)
  {
    LowerAppend(w, ['_'] + r);
    LowerAppend(['_'], r);
    assert Lower(['_']) == "_";
  }

  /** A word followed by a separator run gives the lower-cased word and one `_`. */
  lemma SimplifyWordThenSeparators(w: string, s: string, t: string)
    requires |w| > 0 && AllAlnum(w)
    requires |s| > 0 && NoAlnum(s)
    ensures Simplify(w + s + t) == Lower(w) + "_" + Simplify(t)
  {
    SimplifyIsCollapseInRun(w + s + t);
    SimplifyIsCollapseInRun(t);
    CollapseWordThenSeparators(w, s, t);
    LowerAroundUnderscore(w, Collapse(t, true));
  }

  /** A header made of letters and digits only is just lower-cased: camelCase
      is not split, so `SimpleText` becomes `simpletext`. */
  lemma SimplifyWord(w: string)
    requires AllAlnum(w)
    ensures Simplify(w) == Lower(w)
  {
    SimplifyIsCollapseInRun(w);
    if |w| > 0 {
      CollapseWord(w, "", true);
      assert w + "" == w;
    }
  }

  // ---------------------------------------------------------------------
  // Letters and digits survive, in order.

  /** The alphanumeric characters of `s`, in order. */
  function Alnums(s: string): string {
    if |s| == 0 then []
    else if IsAlnum(s[0]) then [s[0]] + Alnums(s[1..])
    else Alnums(s[1..])
  }

  lemma {:induction false} AlnumsCollapse(s: string, inRun: bool)
    ensures Alnums(Collapse(s, inRun)) == Alnums(s)
  {
    if |s| > 0 {
      AlnumsCollapse(s[1..], IsAlnum(s[0]) || inRun);
      if IsAlnum(s[0]) {
        assert ([s[0]] + Collapse(s[1..], false))[1..] == Collapse(s[1..], false);
      } else if !inRun {
        assert (['_'] + Collapse(s[1..], true))[1..] == Collapse(s[1..], true);
      }
    }
  }

  lemma {:induction false} AlnumsLower(s: string)
    ensures Alnums(Lower(s)) == Lower(Alnums(s))
  {
    if |s| > 0 {
      assert Lower(s)[1..] == Lower(s[1..]);
      AlnumsLower(s[1..]);
      if IsAlnum(s[0]) {
        LowerAppend([s[0]], Alnums(s[1..]));
      }
    }
  }

  /** Normalizing keeps every letter and digit of the header, in order and
      lower-cased, and adds none: only separators change. */
  lemma SimplifyKeepsAlnums(text: string)
    ensures Alnums(Simplify(text)) == Lower(Alnums(text))
  {
    SimplifyIsCollapseInRun(text);
    AlnumsLower(Collapse(text, true));
    AlnumsCollapse(text, true);
  }

  lemma CanonicalNonEmptyHasAlnum(s: string)
    requires IsCanonical(s) && |s| > 0
    ensures Alnums(s) != ""
  {
    assert IsAlnum(s[0]);
  }

  /** A header normalizes to the empty identifier exactly when it has no
      letter or digit, as `###` has. */
  lemma SimplifyEmptyIff(text: string)
    ensures Simplify(text) == "" <==> Alnums(text) == ""
  {
    SimplifyKeepsAlnums(text);
    if |Simplify(text)| > 0 {
      CanonicalNonEmptyHasAlnum(Simplify(text));
    }
  }

  // ---------------------------------------------------------------------
  // Idempotence.

  /** Scanning a string already made of `[0-9a-zA-Z_]` with single `_`s
      changes nothing. */
  lemma {:induction false} CollapseFixes(s: string, inRun: bool)
    requires forall i :: 0 <= i < |s| ==> IsAlnum(s[i]) || s[i] == '_'
    requires NoDoubleUnderscore(s)
    requires inRun && |s| > 0 ==> s[0] != '_'
    ensures Collapse(s, inRun) == s
  {
    if |s| > 0 {
      assert forall i :: 0 <= i < |s[1..]| ==> s[1..][i] == s[i + 1];
      CollapseFixes(s[1..], !IsAlnum(s[0]));
      assert [s[0]] + s[1..] == s;
    }
  }

  /** A normalized identifier is its own normal form. */
  lemma SimplifyFixesCanonical(s: string)
    requires IsCanonical(s)
    ensures Simplify(s) == s
  {
    CollapseFixes(s, false);
  }

  lemma SimplifyIdempotent(text: string)
    ensures Simplify(Simplify(text)) == Simplify(text)
  {
    SimplifyFixesCanonical(Simplify(text));
  }
}

/** Concrete cases of the normalizer: the trailing `_` is kept, an
    all-separator header becomes empty, camelCase is only lower-cased. */
module IdentifierExamples {
  import opened Identifier

  lemma SimplifyKeepsTrailingUnderscore()
    ensures Simplify("1st Name!!") == "1st_name_"
  {
    SimplifyFirstWord();
    SimplifyLastWord();
    JoinFirstAndLastWord();
  }

  lemma JoinFirstAndLastWord()
    ensures "1st_" + "name_" == "1st_name_"
  {
  }

  lemma SimplifyFirstWord()
    ensures Simplify("1st Name!!") == "1st_" + Simplify("Name!!")
  {
    SplitFirstWord();
    SimplifyWordThenSeparators("1st", " ", "Name!!");
    LowerOf1st();
  }

  lemma SplitFirstWord()
    ensures "1st Name!!" == "1st" + " " + "Name!!"
    ensures AllAlnum("1st") && NoAlnum(" ")
  {
  }

  lemma SimplifyLastWord()
    ensures Simplify("Name!!") == "name_"
  {
    assert "Name!!" == "Name" + "!!" + "";
    assert AllAlnum("Name") && NoAlnum("!!");
    SimplifyWordThenSeparators("Name", "!!", "");
    LowerOfName();
  }

  lemma LowerOf1st()
    ensures Lower("1st") == "1st"
  {
    var l := Lower("1st");
    assert l[0] == '1' && l[1] == 's' && l[2] == 't';
  }

  lemma LowerOfName()
    ensures Lower("Name") == "name"
  {
    var l := Lower("Name");
    assert l[0] == 'n' && l[1] == 'a' && l[2] == 'm' && l[3] == 'e';
  }

  lemma SimplifyAllSeparatorsIsEmpty()
    ensures Simplify("###") == ""
  {
  }

  lemma SimplifyDoesNotSplitCamelCase()
    ensures Simplify("SimpleText") == "simpletext"
  {
    assert AllAlnum("SimpleText");
    SimplifyWord("SimpleText");
    LowerOfSimpleText();
  }

  lemma LowerOfSimpleText()
    ensures Lower("SimpleText") == "simpletext"
  {
    var l := Lower("SimpleText");
    assert l[0] == 's' && l[1] == 'i' && l[2] == 'm' && l[3] == 'p' && l[4] == 'l';
    assert l[5] == 'e' && l[6] == 't' && l[7] == 'e' && l[8] == 'x' && l[9] == 't';
  }
}

=== FILE: paths.dfy ===
/**
 The two path helpers the table name is derived from, for `/`-separated
 paths: `os.path.basename` and the root part of `os.path.splitext`.
 */
module Paths {

  /** Position of the last `c` in `s`, or -1 (`str.rfind`). */
  function LastIndexOf(s: string, c: char): (i: int)
    ensures -1 <= i < |s|
    ensures i >= 0 ==> s[i] == c
    ensures forall k :: i < k < |s| ==> s[k] != c
  {
    if |s| == 0 then -1
    else if s[|s| - 1] == c then |s| - 1
    else LastIndexOf(s[..|s| - 1], c)
  }

  /** `os.path.basename`: everything after the last `/`. */
  function Basename(path: string): (name: string)
    ensures '/' !in name
    ensures |name| <= |path| && name == path[|path| - |name|..]
    ensures |name| < |path| ==> path[|path| - |name| - 1] == '/'
  {
    path[LastIndexOf(path, '/') + 1..]
  }

  predicate AllDots(s: string) {
    forall k :: 0 <= k < |s| ==> s[k] == '.'
  }

  /** `os.path.splitext(name)[0]` for a name without `/`: the part before
      the last `.`, unless only dots precede that `.` (a leading-dot name
      such as `.csv` has no extension). The contract fixes the stem: it is
      shorter exactly when some character other than `.` comes before a `.`,
      and then it ends just before the last `.`. */
  function Stem(name: string): (stem: string)
    ensures |stem| <= |name| && stem == name[..|stem|]
    ensures stem != name ==> name[|stem|] == '.' && '.' !in name[|stem| + 1..] && !AllDots(stem)
    ensures forall i, j :: 0 <= i < j < |name| && name[i] != '.' && name[j] == '.' ==> |stem| < |name|
  {
    var dot := LastIndexOf(name, '.');
    if dot >= 0 && !AllDots(name[..dot]) then name[..dot] else name
  }

  /** The basename of a path is the last component, whatever the directory. */
  lemma BasenameOfJoin(dir: string, file: string)
    requires '/' !in file
    ensures Basename(dir + "/" + file) == file
  {
    var p := dir + "/" + file;
    var i := LastIndexOf(p, '/');
    assert p[|dir|] == '/';
    assert forall k :: |dir| < k < |p| ==> p[k] == file[k - |dir| - 1];
    assert p[|dir| + 1..] == file;
  }

  /** A name without any `.` has no extension. */
  lemma StemWithoutDot(name: string)
    requires '.' !in name
    ensures Stem(name) == name
  {
  }

  /** Removing an extension: `report.2020.csv` has stem `report.2020`. */
  lemma StemOfExtension(base: string, ext: string)
    requires !AllDots(base) && '.' !in ext
    ensures Stem(base + "." + ext) == base
  {
    var name := base + "." + ext;
    var dot := LastIndexOf(name, '.');
    assert name[|base|] == '.';
    assert forall k :: |base| < k < |name| ==> name[k] == ext[k - |base| - 1];
    assert name[..|base|] == base;
  }

  /** Leading dots do not start an extension: `.csv` and `..csv` are stems. */
  lemma StemOfDotName(dots: string, rest: string)
    requires AllDots(dots) && '.' !in rest
    ensures Stem(dots + rest) == dots + rest
  {
    var name := dots + rest;
    var dot := LastIndexOf(name, '.');
    assert forall k :: |dots| <= k < |name| ==> name[k] == rest[k - |dots|];
    if dot >= 0 {
      assert AllDots(name[..dot]);
    }
  }
}

=== FILE: sql.dfy ===
/**
 The SQL text the loader sends: the column lists of the CREATE TABLE and
 COPY statements and the statements themselves. Each column list is checked
 against a parser for it, so that "the list names these columns, in this
 order" is a round trip rather than a restatement of the formatting code.
 */
module Sql {
  import opened Wrappers

  const DataType := "varchar"
  const Comma := ','
  const Quote := '"'

  /** `sep.join(items)`. */
  function Join(items: seq<string>, sep: char): string
  {
    if |items| == 0 then ""
    else if |items| == 1 then items[0]
    else items[0] + [sep] + Join(items[1..], sep)
  }

  /** Position of the first `c` in `s`, or -1 (`str.find`). */
  function IndexOf(s: string, c: char): (i: int)
    ensures -1 <= i < |s|
    ensures i >= 0 ==> s[i] == c
    ensures forall k :: 0 <= k < |s| && (i < 0 || k < i) ==> s[k] != c
  {
    if |s| == 0 then -1
    else if s[0] == c then 0
    else var j := IndexOf(s[1..], c); if j < 0 then -1 else j + 1
  }

  /** `s.split(sep)`, except that the empty string has no fields (it is what
      joining no fields gives). Empty fields, a trailing one included, are kept,
      so a list with a stray separator does not parse. */
  function Split(s: string, sep: char): seq<string> {
    if |s| == 0 then [] else Fields(s, sep)
  }

  /** `s.split(sep)`. */
  function Fields(s: string, sep: char): (fields: seq<string>)
    ensures |fields| > 0
    decreases |s|
  {
    var i := IndexOf(s, sep);
    if i < 0 then [s] else [s[..i]] + Fields(s[i + 1..], sep)
  }

  predicate Separable(items: seq<string>, sep: char) {
    forall i :: 0 <= i < |items| ==> |items[i]| > 0 && sep !in items[i]
  }

  /** The first field ends at the first separator. */
  lemma FieldsCons(a: string, b: string, sep: char)
    requires sep !in a
    ensures Fields(a + [sep] + b, sep) == [a] + Fields(b, sep)
  {
    var s := a + [sep] + b;
    assert s[|a|] == sep;
    assert forall k :: 0 <= k < |a| ==> s[k] == a[k];
    assert IndexOf(s, sep) == |a|;
    assert s[..|a|] == a;
    assert s[|a| + 1..] == b;
  }

  lemma {:induction false} FieldsJoin(items: seq<string>, sep: char)
    requires |items| > 0
    requires forall i :: 0 <= i < |items| ==> sep !in items[i]
    ensures Fields(Join(items, sep), sep) == items
  {
    if |items| == 1 {
      assert IndexOf(items[0], sep) < 0;
    } else {
      var rest := Join(items[1..], sep);
      assert Join(items, sep) == items[0] + [sep] + rest;
      FieldsCons(items[0], rest, sep);
      FieldsJoin(items[1..], sep);
    }
  }

  /** Joining non-empty fields that do not contain the separator can be undone. */
  lemma SplitJoin(items: seq<string>, sep: char)
    requires Separable(items, sep)
    ensures Split(Join(items, sep), sep) == items
  {
    if |items| > 0 {
      FieldsJoin(items, sep);
      assert |Join(items, sep)| >= |items[0]| > 0;
    }
  }

  // ---------------------------------------------------------------------
  // Column lists.

  /** `'"{}"'.format(column)`. */
  function QuoteIdent(column: string): string {
    [Quote] + column + [Quote]
  }

  /** `'"{}" {}'.format(column, DEFAULT_DATA_TYPE)`. */
  function ColumnDef(column: string): string {
    QuoteIdent(column) + " " + DataType
  }

  /** A list comprehension `[render(c) for c in columns]`. */
  function MapEach(columns: seq<string>, render: string -> string): (r: seq<string>)
    ensures |r| == |columns|
    ensures forall i :: 0 <= i < |columns| ==> r[i] == render(columns[i])
  {
    if |columns| == 0 then [] else [render(columns[0])] + MapEach(columns[1..], render)
  }

  /** The CREATE TABLE column list: `"a" varchar,"b" varchar`. */
  function CreateColumnList(columns: seq<string>): string {
    Join(MapEach(columns, ColumnDef), Comma)
  }

  /** The COPY column list: `"a","b"`. */
  function CopyColumnList(columns: seq<string>): string {
    Join(MapEach(columns, QuoteIdent), Comma)
  }

  /** Reads back one quoted identifier. */
  function Unquote(entry: string): (r: Option<string>)
    ensures r.Some? ==> QuoteIdent(r.value) == entry
  {
    if |entry| >= 2 && entry[0] == Quote && entry[|entry| - 1] == Quote
    then Some(entry[1..|entry| - 1])
    else None
  }

  /** Reads back one column definition. */
  function UnColumnDef(entry: string): (r: Option<string>)
    ensures r.Some? ==> ColumnDef(r.value) == entry
  {
    var suffix := " " + DataType;
    if |entry| >= |suffix| && entry[|entry| - |suffix|..] == suffix
    then Unquote(entry[..|entry| - |suffix|])
    else None
  }

  function ParseEach(entries: seq<string>, parse: string -> Option<string>): (r: Option<seq<string>>)
    ensures r.Some? ==> |r.value| == |entries|
  {
    if |entries| == 0 then Some([])
    else match (parse(entries[0]), ParseEach(entries[1..], parse))
      case (Some(c), Some(cs)) => Some([c] + cs)
      case _ => None
  }

  /** Parses a COPY column list back into column names. */
  function ParseCopyColumnList(list: string): Option<seq<string>> {
    ParseEach(Split(list, Comma), Unquote)
  }

  /** Parses a CREATE TABLE column list back into column names. */
  function ParseCreateColumnList(list: string): Option<seq<string>> {
    ParseEach(Split(list, Comma), UnColumnDef)
  }

  predicate NoComma(columns: seq<string>) {
    forall i :: 0 <= i < |columns| ==> Comma !in columns[i]
  }

  lemma {:induction false} ParseEachInverse(columns: seq<string>, render: string -> string,
                                            parse: string -> Option<string>)
    requires forall c :: parse(render(c)) == Some(c)
    ensures ParseEach(MapEach(columns, render), parse) == Some(columns)
  {
    var entries := MapEach(columns, render);
    if |columns| > 0 {
      ParseEachInverse(columns[1..], render, parse);
      assert parse(entries[0]) == Some(columns[0]);
      assert [columns[0]] + columns[1..] == columns;
    }
  }

  lemma UnquoteQuoteIdent(c: string)
    ensures Unquote(QuoteIdent(c)) == Some(c)
  {
    assert QuoteIdent(c)[1..|QuoteIdent(c)| - 1] == c;
  }

  lemma UnColumnDefColumnDef(c: string)
    ensures UnColumnDef(ColumnDef(c)) == Some(c)
  {
    var e := ColumnDef(c);
    var suffix := " " + DataType;
    assert e == QuoteIdent(c) + suffix;
    assert e[|e| - |suffix|..] == suffix;
    assert e[..|e| - |suffix|] == QuoteIdent(c);
    UnquoteQuoteIdent(c);
  }

  /** The COPY column list names exactly `columns`, in order. */
  lemma CopyColumnListRoundTrip(columns: seq<string>)
    requires NoComma(columns)
    ensures ParseCopyColumnList(CopyColumnList(columns)) == Some(columns)
  {
    var entries := MapEach(columns, QuoteIdent);
    assert Separable(entries, Comma);
    SplitJoin(entries, Comma);
    forall c { UnquoteQuoteIdent(c); }
    ParseEachInverse(columns, QuoteIdent, Unquote);
  }

  /** The CREATE TABLE column list declares exactly `columns`, in order. */
  lemma CreateColumnListRoundTrip(columns: seq<string>)
    requires NoComma(columns)
    ensures ParseCreateColumnList(CreateColumnList(columns)) == Some(columns)
  {
    var entries := MapEach(columns, ColumnDef);
    assert forall i :: 0 <= i < |entries| ==> entries[i] == QuoteIdent(columns[i]) + (" " + DataType);
    assert Separable(entries, Comma);
    SplitJoin(entries, Comma);
    forall c { UnColumnDefColumnDef(c); }
    ParseEachInverse(columns, ColumnDef, UnColumnDef);
  }

  lemma {:induction false} FieldsJoinTrailing(items: seq<string>, sep: char)
    requires |items| > 0
    requires forall i :: 0 <= i < |items| ==> sep !in items[i]
    ensures Fields(Join(items, sep) + [sep], sep) == items + [""]
  {
    if |items| == 1 {
      assert Join(items, sep) + [sep] == items[0] + [sep] + [];
      FieldsCons(items[0], [], sep);
      assert Fields([], sep) == [""];
    } else {
      var rest := Join(items[1..], sep) + [sep];
      assert Join(items, sep) + [sep] == items[0] + [sep] + rest;
      FieldsCons(items[0], rest, sep);
      FieldsJoinTrailing(items[1..], sep);
      assert [items[0]] + (items[1..] + [""]) == items + [""];
    }
  }

  lemma {:induction false} ParseEachFailsOnLast(entries: seq<string>, last: string,
                                                parse: string -> Option<string>)
    requires parse(last).None?
    ensures ParseEach(entries + [last], parse).None?
  {
    var all := entries + [last];
    if |entries| > 0 {
      assert all[1..] == entries[1..] + [last];
      ParseEachFailsOnLast(entries[1..], last, parse);
    }
  }

  /** A stray trailing comma is not read as an extra, empty column. */
  lemma CopyColumnListTrailingComma(columns: seq<string>)
    requires |columns| > 0 && NoComma(columns)
    ensures ParseCopyColumnList(CopyColumnList(columns) + [Comma]).None?
  {
    var entries := MapEach(columns, QuoteIdent);
    assert forall i :: 0 <= i < |entries| ==> Comma !in entries[i];
    FieldsJoinTrailing(entries, Comma);
    ParseEachFailsOnLast(entries, "", Unquote);
  }

  /** The two statements agree: same columns, same order, same count. */
  lemma ColumnListsAgree(columns: seq<string>)
    requires NoComma(columns)
    ensures ParseCreateColumnList(CreateColumnList(columns)) == ParseCopyColumnList(CopyColumnList(columns))
    ensures ParseCopyColumnList(CopyColumnList(columns)) == Some(columns)
  {
    CreateColumnListRoundTrip(columns);
    CopyColumnListRoundTrip(columns);
  }

  // ---------------------------------------------------------------------
  // Statements.

  /** The two statements the loader sends, before formatting. */
  datatype Statement =
    | CreateTable(table: string, columnList: string)
    | CopyFrom(table: string, columnList: string, delimiter: string, quote: string, escape: string)

  /** `CREATE_STMT.format(...)` and `COPY_STMT.format(...)`. */
  function Render(s: Statement): string {
    match s
    case CreateTable(t, cols) =>
      "CREATE TABLE IF NOT EXISTS " + t + " (" + cols + ");"
    case CopyFrom(t, cols, d, q, e) =>
      "COPY " + t + " (" + cols + ") FROM stdin WITH CSV HEADER DELIMITER '" + d
        + "' QUOTE '" + q + "' ESCAPE '" + e + "'"
  }
}

=== FILE: wrappers.dfy ===
/** Failure-compatible wrappers used for Python's `None` and raised exceptions. */
module Wrappers {

  /** `None` or a present value, as Python's optional arguments are. */
  datatype Option<+T> = None | Some(value: T)

  /** A value, or the exception the Python code would raise instead. */
  datatype Result<+R, +E> = Success(value: R) | Failure(error: E) {

    predicate IsFailure() {
      Failure?
    }

    function PropagateFailure<U>(): Result<U, E>
      requires Failure?
    {
      Failure(error)
    }

    function Extract(): R
      requires Success?
    {
      value
    }
  }
}
